=== FILE: README.md ===
# GhibliMoviesApp, modelled in Dafny

GhibliMoviesApp is a SwiftUI client for the public Studio Ghibli API
(`https://ghibliapi.vercel.app`). It lists the films, shows one film's
details and loads posters and banners through an in-memory image cache.
This project models the app's logic and proves properties of it:

- `films.dfy` (`module Films`): the `Film` record and its `CodingKeys`.
  JSON decoding follows the rules of Swift's synthesized `Decodable`:
  keys are read in declaration order and the first failing key is
  reported. A required key that is missing is `keyNotFound`, a null
  required key is `valueNotFound`, and a value of the wrong type is
  `typeMismatch`. A null where a film or the film list should be is
  `valueNotFound` as well. A missing or null optional key is `nil`. JSON encoding
  writes optional fields with `encodeIfPresent`, so a `nil` field has no
  key. `[Film]` arrays are decoded with `[i]` in the error path.
- `ghibli_api.dfy` (`module GhibliAPI`): `APIError`, its Portuguese
  `errorDescription`, the two endpoint URLs, and the checks
  `fetchFilms`/`fetchFilm` make in order:
  - the URL guard,
  - the response class,
  - the 2xx status,
  - decoding,
  - the `catch` that rethrows an `APIError` unchanged and wraps any other
    error as `networkError`.

  The network is a function from URL to what `session.data(from:)`
  delivers. A fetch also returns the URLs it requested, so a proof can
  say that no request was made.
- `image_cache.dfy` (`module ImageCaching`): the `ImageCache` store, a
  class with a table from URL string to entry and the running total cost.
  It has a count ceiling of 100 and a cost ceiling of 50 MiB, and each
  image costs `width * height * 4`.
- `async_image.dfy` (`module AsyncImages`): `AsyncImageView`'s three state
  variables, `loadImage()` (URL guard, then cache, then download and
  decode), and the three-way choice `body` makes (image, skeleton or
  placeholder).
- `film_list.dfy` and `film_detail.dfy` (`module FilmList`,
  `module FilmDetail`): `ViewState` and the two view models. Each load
  sets the state to `loading` and then to `loaded` or `error(message)`.
  The state changes are recorded in a ghost history. The detail module
  also has the banner choice `movieBanner ?? image`.
- `wrappers.dfy`: `Option` and `Result`.

Behaviours of the code worth noting:

- A reload that fails replaces loaded data with the error state; no
  last-good list is kept.
- `fetchFilm(id:)` does not check that the returned film has the
  requested `id` (`GhibliAPI.FetchFilmReturnsBodyFilm`).
- An `APIError` thrown by the transport itself is passed on unchanged
  and is not wrapped as `networkError`
  (`GhibliAPI.NetworkErrorOnlyFromTransport`).
- An optional field that holds something other than a string or null
  makes the whole film fail to decode.

## Model

| member | source | states |
|---|---|---|
| Films.Field | GhibliMoviesApp/GhibliMoviesApp/Models/Film.swift:11-23 | the ten non-optional properties always have a value; only `image` and `movieBanner` may be absent |
| Films.StringValue | GhibliMoviesApp/GhibliMoviesApp/Models/Film.swift:26-39 | definition: the raw value of each coding key, snake_case where the table renames; the properties about it are `Films.StringValueInjective` and `Films.EncodeFilmMembers` |
| Films.StringValueInjective | GhibliMoviesApp/GhibliMoviesApp/Models/Film.swift:26-39 | two coding keys have the same JSON name exactly when they are the same key |
| Films.AllKeysComplete | GhibliMoviesApp/GhibliMoviesApp/Models/Film.swift:26-39 | the key table lists each of the 12 coding keys exactly once |
| Films.RequiredKeysFirst | GhibliMoviesApp/GhibliMoviesApp/Models/Film.swift:12-23 | in declaration order the 10 required keys come first and the 2 optional keys last |
| Films.FieldsDetermineFilm | GhibliMoviesApp/GhibliMoviesApp/Models/Film.swift:11-23 | two films that agree on every coding key are equal |
| Films.DecodeKeys | GhibliMoviesApp/GhibliMoviesApp/Models/Film.swift:26-39 | a successful decode of the keys yields, for each key, the string found under its JSON name, or none; a required key always yields a value |
| Films.DecodeString | GhibliMoviesApp/GhibliMoviesApp/Models/Film.swift:12-21 | definition: synthesized `decode(String.self, forKey:)`, missing key `keyNotFound`, null `valueNotFound`, other kind `typeMismatch`; the properties about it are `Films.DecodeFilmSucceedsIff` and `Films.DecodeKeysReportsFirstFailure` |
| Films.DecodeStringIfPresent | GhibliMoviesApp/GhibliMoviesApp/Models/Film.swift:22-23 | definition: synthesized `decodeIfPresent`, missing or null is `nil`, other kind `typeMismatch`; the properties about it are `Films.DecodeFilmSucceedsIff` and `Films.DecodedFieldsAreJsonStrings` |
| Films.DecodeFilmObject | GhibliMoviesApp/GhibliMoviesApp/Models/Film.swift:11-39 | definition: the synthesized `init(from:)`, the keys in declaration order; the properties about it are `Films.FilmRoundTrip` and `Films.DecodeFilmReportsFirstFailure` |
| Films.DecodeFilm | GhibliMoviesApp/GhibliMoviesApp/Models/Film.swift:11-39 | a null in place of a film is `valueNotFound` at its path, any other non-object `typeMismatch`; an object is decoded key by key |
| Films.DecodeArray | GhibliMoviesApp/GhibliMoviesApp/Services/GhibliAPIService.swift:66 | a null in place of the array is `valueNotFound` and any other non-array a type mismatch, at the current path; on success the result has one element per item, element i decoded at path `[i]` |
| Films.DecodeElements | GhibliMoviesApp/GhibliMoviesApp/Services/GhibliAPIService.swift:66 | the array's elements decode one by one, each at its own index |
| Films.DecodeFilmArray | GhibliMoviesApp/GhibliMoviesApp/Services/GhibliAPIService.swift:66 | definition: `[Film]` decoding; the properties about it are `Films.FilmArrayRoundTrip`, and `Films.DecodeElementsReportsFirstFailure` with `Films.DecodeFilm` as the element decoder |
| Films.PresentKeys | GhibliMoviesApp/GhibliMoviesApp/Models/Film.swift:22-23 | the encoder writes exactly the keys whose property has a value; a nil optional is omitted |
| Films.Present | GhibliMoviesApp/GhibliMoviesApp/Models/Film.swift:22-23 | keeps exactly the listed keys whose property has a value |
| Films.EncodeArray | GhibliMoviesApp/GhibliMoviesApp/Models/Film.swift:11 | definition: an array encodes element by element, in order; the property about it is `Films.ArrayRoundTrip` |
| Films.EncodeFilm | GhibliMoviesApp/GhibliMoviesApp/Models/Film.swift:11-39 | definition: the synthesized `encode(to:)`; the properties about it are `Films.EncodeFilmMembers` and `Films.FilmRoundTrip` |
| Films.EncodeFilmArray | GhibliMoviesApp/GhibliMoviesApp/Services/GhibliAPIService.swift:66 | definition: `[Film]` encoding, the inverse the list decoding is proved against; the property about it is `Films.FilmArrayRoundTrip` |
| Films.EncodeKeysLookup | GhibliMoviesApp/GhibliMoviesApp/Models/Film.swift:26-39 | the encoded object has a key's JSON name exactly when the key was written, holding the property's string |
| Films.EncodeKeysDomain | GhibliMoviesApp/GhibliMoviesApp/Models/Film.swift:26-39 | every name in the encoded object is the JSON name of a written key |
| Films.EncodeFilmMembers | GhibliMoviesApp/GhibliMoviesApp/Models/Film.swift:26-39 | an encoded film has a member exactly for each present property, under its snake_case name, and no other member |
| Films.DecodeEncodedKey | GhibliMoviesApp/GhibliMoviesApp/Models/Film.swift:26-39 | each key of an encoded film decodes back to that property |
| Films.FieldsOf | GhibliMoviesApp/GhibliMoviesApp/Models/Film.swift:12-23 | definition: a film's values listed in key order; the properties about it are `Films.DecodeKeysOfEncoded` and `Films.FilmOfFields` |
| Films.DecodeKeysOfEncoded | GhibliMoviesApp/GhibliMoviesApp/Models/Film.swift:26-39 | decoding the keys of an encoded film yields the film's own values, in order |
| Films.FieldOfFilmOf | GhibliMoviesApp/GhibliMoviesApp/Models/Film.swift:12-23 | a film built from values in key order holds each value under its key |
| Films.FilmOfFields | GhibliMoviesApp/GhibliMoviesApp/Models/Film.swift:12-23 | rebuilding a film from its own values gives the same film |
| Films.FilmRoundTrip | GhibliMoviesApp/GhibliMoviesApp/Models/Film.swift:11-39 | decoding an encoded film gives the film back, `nil` optionals included |
| Films.ArrayRoundTrip | GhibliMoviesApp/GhibliMoviesApp/Services/GhibliAPIService.swift:66 | an element coding that round-trips makes array coding round-trip |
| Films.FilmArrayRoundTrip | GhibliMoviesApp/GhibliMoviesApp/Services/GhibliAPIService.swift:66 | decoding an encoded `[Film]` gives the list back, the empty list included |
| Films.DecodeKeysReportsFirstFailure | GhibliMoviesApp/GhibliMoviesApp/Models/Film.swift:26-39 | decoding fails exactly when some key fails on its own, and the error is the first failing key's, in declaration order |
| Films.DecodeFilmReportsFirstFailure | GhibliMoviesApp/GhibliMoviesApp/Models/Film.swift:26-39 | a film object's decoding error is that of its first failing key |
| Films.FirstKeyErrorNone | GhibliMoviesApp/GhibliMoviesApp/Models/Film.swift:26-39 | there is no first failing key exactly when no key fails |
| Films.DecodeFilmSucceedsIff | GhibliMoviesApp/GhibliMoviesApp/Models/Film.swift:11-39 | an object decodes to a film iff every required key holds a string and every optional key is missing, null or a string |
| Films.MissingRequiredKeyFails | GhibliMoviesApp/GhibliMoviesApp/Models/Film.swift:12-21 | a required key that is missing, null or not a string makes decoding fail |
| Films.DecodedFieldsAreJsonStrings | GhibliMoviesApp/GhibliMoviesApp/Models/Film.swift:11-39 | a decoded film holds exactly the strings under the snake_case names, and none where an optional is missing or null |
| Films.DecodeElementsReportsFirstFailure | GhibliMoviesApp/GhibliMoviesApp/Services/GhibliAPIService.swift:66 | when elements before index i decode and element i does not, the array fails with element i's own error, at its index; for `[Film]` a `null` element at `[i]` is `valueNotFound` |
| Films.ArrayFailsIfElementFails | GhibliMoviesApp/GhibliMoviesApp/Services/GhibliAPIService.swift:66 | one element that fails to decode makes the whole array fail |
| GhibliAPI.DigitChar | GhibliMoviesApp/GhibliMoviesApp/Services/GhibliAPIService.swift:26 | a digit value becomes the character of that digit |
| GhibliAPI.NatToDecimal | GhibliMoviesApp/GhibliMoviesApp/Services/GhibliAPIService.swift:26 | the decimal rendering is non-empty and all digits |
| GhibliAPI.IntToString | GhibliMoviesApp/GhibliMoviesApp/Services/GhibliAPIService.swift:26 | definition: `"\(statusCode)"`, a minus sign then the digits; the properties about it are `GhibliAPI.IntToStringRoundTrip` and `GhibliAPI.IntToStringInjective` |
| GhibliAPI.DecimalRoundTrip | GhibliMoviesApp/GhibliMoviesApp/Services/GhibliAPIService.swift:26 | reading the decimal rendering back gives the number |
| GhibliAPI.IntToStringRoundTrip | GhibliMoviesApp/GhibliMoviesApp/Services/GhibliAPIService.swift:26 | an interpolated status code, negative ones included, parses back to the same code |
| GhibliAPI.IntToStringInjective | GhibliMoviesApp/GhibliMoviesApp/Services/GhibliAPIService.swift:26 | distinct codes are rendered as distinct strings |
| GhibliAPI.ErrorDescription | GhibliMoviesApp/GhibliMoviesApp/Services/GhibliAPIService.swift:19-31 | every error has a description; it is never nil |
| GhibliAPI.HttpErrorMessageCarriesCode | GhibliMoviesApp/GhibliMoviesApp/Services/GhibliAPIService.swift:25-26 | the HTTP message is "Erro HTTP: " followed by the status code, which can be read back from it |
| GhibliAPI.ErrorDescriptionDistinguishesCases | GhibliMoviesApp/GhibliMoviesApp/Services/GhibliAPIService.swift:19-31 | two errors have the same message iff they are the same case, with the same code for HTTP errors |
| GhibliAPI.FilmsURL | GhibliMoviesApp/GhibliMoviesApp/Services/GhibliAPIService.swift:37-46 | definition: `"\(baseURL)/films"`; the properties about it are `GhibliAPI.FilmsURLParses` and `GhibliAPI.FetchFilms` |
| GhibliAPI.FilmURL | GhibliMoviesApp/GhibliMoviesApp/Services/GhibliAPIService.swift:80 | definition: `"\(baseURL)/films/\(id)"`; the properties about it are `GhibliAPI.FilmURLParsesIff` and `GhibliAPI.FetchFilm` |
| GhibliAPI.ParsesAsURL | GhibliMoviesApp/GhibliMoviesApp/Services/GhibliAPIService.swift:46-48 | definition: stands for `URL(string:)` returning a URL, as its "## Left out" line describes; the properties about it are `GhibliAPI.FilmURLParsesIff` and `GhibliAPI.FetchFilmWithoutURL` |
| GhibliAPI.FilmsURLParses | GhibliMoviesApp/GhibliMoviesApp/Services/GhibliAPIService.swift:46-48 | the URL guard at line 46 never fails, so an `invalidURL` from `fetchFilms` can only be one the transport threw (`GhibliAPI.FetchFilmsInvalidURLOnlyFromTransport`) |
| GhibliAPI.FilmURLPrefixParses | GhibliMoviesApp/GhibliMoviesApp/Services/GhibliAPIService.swift:80 | the fixed part of a film's URL consists of URI characters |
| GhibliAPI.FilmURLParsesIff | GhibliMoviesApp/GhibliMoviesApp/Services/GhibliAPIService.swift:80-82 | a film's URL is built iff the id consists of URI characters |
| GhibliAPI.IsSuccessStatus | GhibliMoviesApp/GhibliMoviesApp/Services/GhibliAPIService.swift:60 | definition: `(200...299).contains(statusCode)`, both ends included; the properties about it are `GhibliAPI.HandleOutcome` and `GhibliAPI.FetchFilmHttpError` |
| GhibliAPI.DecodeBody | GhibliMoviesApp/GhibliMoviesApp/Services/GhibliAPIService.swift:65-70 | definition: `JSONDecoder().decode` on the body, text that is not JSON being `dataCorrupted`; the property about it is `GhibliAPI.HandleOutcome` |
| GhibliAPI.DoBlock | GhibliMoviesApp/GhibliMoviesApp/Services/GhibliAPIService.swift:50-70 | definition: the `do` block, its checks in order, each throwing its `APIError`; the property about it is `GhibliAPI.HandleOutcome` |
| GhibliAPI.Catch | GhibliMoviesApp/GhibliMoviesApp/Services/GhibliAPIService.swift:71-75 | definition: the two `catch` clauses, rethrowing an `APIError` and wrapping anything else as `networkError`; the properties about it are `GhibliAPI.HandleOutcome` and `GhibliAPI.NetworkErrorOnlyFromTransport` |
| GhibliAPI.HandleOutcome | GhibliMoviesApp/GhibliMoviesApp/Services/GhibliAPIService.swift:50-75 | an `APIError` thrown by the transport is rethrown unchanged; any other error becomes `networkError`; a non-HTTP response is `invalidResponse`; a non-2xx status is `httpError(code)`; an undecodable body is `decodingError`; success iff a 2xx HTTP response whose body decodes, and then the decoded value |
| GhibliAPI.DecoderOnlyConsultedOnSuccessStatus | GhibliMoviesApp/GhibliMoviesApp/Services/GhibliAPIService.swift:55-66 | the body is decoded only after a 2xx HTTP response |
| GhibliAPI.NetworkErrorOnlyFromTransport | GhibliMoviesApp/GhibliMoviesApp/Services/GhibliAPIService.swift:71-75 | a `networkError` comes only from an error thrown by the transport |
| GhibliAPI.FetchFilms | GhibliMoviesApp/GhibliMoviesApp/Services/GhibliAPIService.swift:45-76 | requests exactly `/films` once and classifies the outcome as a `[Film]` |
| GhibliAPI.FetchFilm | GhibliMoviesApp/GhibliMoviesApp/Services/GhibliAPIService.swift:79-110 | if the URL cannot be built, nothing is requested and the result is `invalidURL`; otherwise it requests `/films/{id}` once and classifies the outcome as a `Film` |
| GhibliAPI.FetchFilmsInvalidURLOnlyFromTransport | GhibliMoviesApp/GhibliMoviesApp/Services/GhibliAPIService.swift:45-76 | `fetchFilms` fails with `invalidURL` exactly when the transport itself threw `invalidURL` for `/films` |
| GhibliAPI.FetchFilmsReturnsBodyFilms | GhibliMoviesApp/GhibliMoviesApp/Services/GhibliAPIService.swift:45-76 | a 2xx response carrying an encoded list yields exactly that list |
| GhibliAPI.FetchFilmReturnsBodyFilm | GhibliMoviesApp/GhibliMoviesApp/Services/GhibliAPIService.swift:79-110 | a 2xx response carrying an encoded film yields that film, whatever its id |
| GhibliAPI.FetchFilmWithoutURL | GhibliMoviesApp/GhibliMoviesApp/Services/GhibliAPIService.swift:80-82 | an id with a non-URI character yields `invalidURL` and no request |
| GhibliAPI.FetchFilmHttpError | GhibliMoviesApp/GhibliMoviesApp/Services/GhibliAPIService.swift:94-96 | a non-2xx status yields `httpError` with that code, whatever the body |
| ImageCaching.SumCostsRemove | GhibliMoviesApp/GhibliMoviesApp/Services/ImageCache.swift:31 | the total cost may take out any entry's cost first |
| ImageCaching.SumCostsAgree | GhibliMoviesApp/GhibliMoviesApp/Services/ImageCache.swift:31 | the total cost depends only on the entries summed |
| ImageCaching.TotalCostRemove | GhibliMoviesApp/GhibliMoviesApp/Services/ImageCache.swift:36 | removing an entry lowers the total by exactly its cost |
| ImageCaching.TotalCostInsert | GhibliMoviesApp/GhibliMoviesApp/Services/ImageCache.swift:31 | adding an entry under a new key raises the total by exactly its cost |
| ImageCaching.Cost | GhibliMoviesApp/GhibliMoviesApp/Services/ImageCache.swift:30 | definition: `width * height * 4`; the property about it is `ImageCaching.ImageCache.SetImage`, which records exactly this cost, and the `Valid()` invariant that every stored cost is its image's |
| ImageCaching.ImageCache.constructor | GhibliMoviesApp/GhibliMoviesApp/Services/ImageCache.swift:16-20 | an empty cache with limits 100 entries and 50 * 1024 * 1024 cost |
| ImageCaching.ImageCache.GetImage | GhibliMoviesApp/GhibliMoviesApp/Services/ImageCache.swift:23-25 | the image stored under exactly this key, or none; nothing changes |
| ImageCaching.ImageCache.SetImage | GhibliMoviesApp/GhibliMoviesApp/Services/ImageCache.swift:28-32 | the image is stored under the key with cost `width * height * 4`, replacing an older entry; other entries are kept unchanged or evicted; afterwards at most 100 entries, and the cost ceiling holds unless the new image is alone |
| ImageCaching.ImageCache.Discard | GhibliMoviesApp/GhibliMoviesApp/Services/ImageCache.swift:36 | takes one key out of the table and its cost out of the total |
| ImageCaching.ImageCache.RemoveImage | GhibliMoviesApp/GhibliMoviesApp/Services/ImageCache.swift:35-37 | only that key is gone; an absent key changes nothing |
| ImageCaching.ImageCache.ClearCache | GhibliMoviesApp/GhibliMoviesApp/Services/ImageCache.swift:40-42 | the cache is empty and stays consistent |
| AsyncImages.AsyncImageView.constructor | GhibliMoviesApp/GhibliMoviesApp/Views/AsyncImageView.swift:15-17 | a fresh view has no image, is loading and has no error, so its first frame is the skeleton |
| AsyncImages.AsyncImageView.HasURL | GhibliMoviesApp/GhibliMoviesApp/Views/AsyncImageView.swift:54-55 | definition: the guard, a URL string present and parsing as a URL; the property about it is `AsyncImages.AsyncImageView.LoadImage` |
| AsyncImages.DownloadedImage | GhibliMoviesApp/GhibliMoviesApp/Views/AsyncImageView.swift:73-74 | definition: the download followed by `UIImage(data:)`, none when either fails; the property about it is `AsyncImages.AsyncImageView.LoadImage` |
| AsyncImages.AsyncImageView.Content | GhibliMoviesApp/GhibliMoviesApp/Views/AsyncImageView.swift:28-42 | shows the image whenever there is one; otherwise the skeleton iff loading and the placeholder iff not; `hasError` plays no part |
| AsyncImages.AsyncImageView.LoadImage | GhibliMoviesApp/GhibliMoviesApp/Views/AsyncImageView.swift:52-89 | no usable URL sets the error flag and makes no request; a cache hit shows the cached image with no request; a miss downloads once, then caches and shows a decoded image with the error cleared, or sets the error flag leaving the cache and image alone; loading has always stopped; the frame during a download is the skeleton, or the image already shown, and the frame afterwards is the final one |
| AsyncImages.LoadTwice | GhibliMoviesApp/GhibliMoviesApp/Views/AsyncImageView.swift:62-78 | after a successful load the next load of the same URL is served from the cache with no download |
| FilmList.ErrorMessage | GhibliMoviesApp/GhibliMoviesApp/ViewModels/FilmListViewModel.swift:25 | the shown message is always the error's own description, never Foundation's fallback, and never empty |
| FilmList.ErrorMessagesDistinguishErrors | GhibliMoviesApp/GhibliMoviesApp/ViewModels/FilmListViewModel.swift:25-26 | two errors give the same message iff they are the same case, with the same code for HTTP errors |
| FilmList.Settled | GhibliMoviesApp/GhibliMoviesApp/ViewModels/FilmListViewModel.swift:20-27 | a finished load is `loaded` with the fetched value or `error` with the description; never `loading` |
| FilmList.FilmListViewModel.constructor | GhibliMoviesApp/GhibliMoviesApp/ViewModels/FilmListViewModel.swift:13 | a new screen is `loading` |
| FilmList.FilmListViewModel.LoadFilms | GhibliMoviesApp/GhibliMoviesApp/ViewModels/FilmListViewModel.swift:17-28 | the state becomes `loading` and then, in one more step, the fetched list or the error's message, from any earlier state |
| FilmList.LoadServedFilms | GhibliMoviesApp/GhibliMoviesApp/ViewModels/FilmListViewModel.swift:17-28 | a server answering 2xx with encoded films leads to `loading` and then `loaded` with exactly those films |
| FilmDetail.BannerURL | GhibliMoviesApp/GhibliMoviesApp/Views/FilmDetailView.swift:27 | the banner is `movieBanner` when present, otherwise `image`; none only when both are absent |
| FilmDetail.FilmDetailViewModel.constructor | GhibliMoviesApp/GhibliMoviesApp/ViewModels/FilmDetailViewModel.swift:13 | a new detail screen is `loading` |
| FilmDetail.FilmDetailViewModel.LoadFilm | GhibliMoviesApp/GhibliMoviesApp/ViewModels/FilmDetailViewModel.swift:19-29 | the state becomes `loading` and then the fetched film or the error's message, also when run again from `error` by the retry button |
| FilmDetail.RetryWithoutURL | GhibliMoviesApp/GhibliMoviesApp/Views/FilmDetailView.swift:77-79 | retrying with an id that cannot form a URL passes through `loading` back to the same "URL inválida" error |

## Left out

- The network: `URLSession` is a function from URL to outcome. Timeouts,
  redirects, caching and the URL of the response are not modelled.
- JSON text: bodies are given as already-parsed JSON values (`JsonText`)
  or as text that is not JSON (`NotJson`, a `dataCorrupted` error at the
  root). `JSONDecoder`'s byte-level parser and its error messages are not
  modelled. JSON numbers are integers, because no `Film` field is numeric.
- `URL(string:)`: a string is taken to parse when it is non-empty and
  made only of characters RFC 3986 allows. This is the strict parser of
  earlier SDKs: from iOS 17 on, `URL(string:)` percent-encodes such
  characters instead of failing, so `fetchFilm(id: "a b")` requests
  `/films/a%20b`. `GhibliAPI.ParsesAsURL`, `GhibliAPI.FetchFilmWithoutURL`
  and `FilmDetail.RetryWithoutURL` describe the strict parser.
- `error.localizedDescription`: Foundation's text is a parameter and is
  never shown, as `FilmList.ErrorMessage` proves.
- The wrapped Swift `Error` of `decodingError` is the model's decoding
  failure. For `networkError` it is an opaque description.
- Concurrency: both actors, `@MainActor`, `async`/`await` and the
  interleaving of two loads are left out. Every operation runs to
  completion on its own, and `ImageCache.shared` is the object passed to
  the view.
- `ImageCaching.ImageCache.SetImage`: `NSCache` evicts at times and in an
  order of its own choosing, and it may evict under memory pressure. The
  model evicts right away, other entries only, in an unspecified order,
  until both ceilings hold or the new entry is alone. It states no
  least-recently-used order. It keeps an oversized lone image that
  `NSCache` may refuse.
- `ImageCaching.Cost`: image sizes are whole points. `CGFloat`
  multiplication and the truncating `Int(...)` conversion are not
  modelled, and the screen scale is ignored, as in the source.
- `UIImage(data:)` is a parameter from bytes to an optional image.
- The views' layout, navigation, skeleton animation and the film row view
  are not modelled. The `.task` loads and the "Tentar novamente" retry
  buttons of `FilmListView` (lines 52-56 and 63-65) and `FilmDetailView`
  (lines 77-81 and 89-91) call `loadFilms()` and `loadFilm(id:)`, which
  `FilmList.FilmListViewModel.LoadFilms` and
  `FilmDetail.FilmDetailViewModel.LoadFilm` model from any earlier state.
  The banner choice (`FilmDetail.BannerURL`) and a retry without a URL
  (`FilmDetail.RetryWithoutURL`) are modelled.
- `FilmListView`, lines 22-31: the "Nenhum filme encontrado" message shown
  for `.loaded([])` is view logic that is not modelled. The model only
  proves that an empty list from the server ends in `loaded([])`, not in
  an error (`FilmList.LoadServedFilms` with no films).
- `GhibliAPIService.init(session:)`: the injected session is the
  `transport` parameter.

=== FILE: async_image.dfy ===
/** The image loader view (Views/AsyncImageView.swift): three pieces of view
    state, a loading routine that consults the shared image cache before the
    network, and a display that picks one of three things to show.

    The download and the bytes-to-image conversion are parameters, since they
    belong to URLSession and UIKit. */
module AsyncImages {
  import opened Wrappers
  import opened GhibliAPI
  import opened ImageCaching

  /** What `URLSession.shared.data(from:)` produced: the bytes, or a thrown
      error. */
  datatype Download = Downloaded(data: seq<bv8>) | DownloadFailed(description: string)

  /** The three things `body` can show. */
  datatype Shown = Picture(image: Image) | Skeleton | Placeholder

  /** The image a download of `url` yields: none when the download throws or
      when its bytes are not an image (`UIImage(data:)` returns nil). */
  function DownloadedImage(url: string, download: string -> Download, decodeImage: seq<bv8> -> Option<Image>): Option<Image> {
    match download(url)
    case Downloaded(data) => decodeImage(data)
    case DownloadFailed(_) => None
  }

  class AsyncImageView {
    const urlString: Option<string>
    /** `ImageCache.shared`. */
    const cache: ImageCache
    var image: Option<Image>
    var isLoading: bool
    var hasError: bool
    /** What the view has shown, oldest first: its first frame, then, for each
        load, the frame while a download is in flight and the frame once the
        load has finished. */
    ghost var shown: seq<Shown>

    /** A fresh view: no image yet, loading, no error, so it shows the
        skeleton. */
    constructor (urlString: Option<string>, cache: ImageCache)
      ensures this.urlString == urlString && this.cache == cache
      ensures image == None && isLoading && !hasError
      ensures Content() == Skeleton && shown == [Skeleton]
    {
      this.urlString := urlString;
      this.cache := cache;
      image := None;
      isLoading := true;
      hasError := false;
      shown := [Skeleton];
    }

    /** The guard of `loadImage`: a URL string is present and parses as a URL. */
    predicate HasURL() {
      urlString.Some? && ParsesAsURL(urlString.value)
    }

    /** `body`: the image whenever there is one, whatever the flags say;
        otherwise the skeleton while loading and the placeholder once loading
        has stopped.  `hasError` plays no part. */
    function Content(): (shown: Shown)
      reads this
      ensures shown.Picture? <==> image.Some?
      ensures shown.Picture? ==> shown.image == image.value
      ensures shown.Skeleton? <==> image.None? && isLoading
      ensures shown.Placeholder? <==> image.None? && !isLoading
    {
      if image.Some? then Picture(image.value)
      else if isLoading then Skeleton
      else Placeholder
    }

    /** `loadImage()`.  Returns the URLs it downloaded (at most one).
        - No usable URL: the error flag is set, nothing is downloaded and the
          cache is left alone.
        - A cache hit: the cached image is shown without a download, and the
          error flag keeps its old value.
        - A miss: one download; a decoded image is stored in the cache under
          the URL string and shown with the error flag cleared; a failed
          download or undecodable bytes set the error flag and leave both the
          cache and the image as they were.
        In every case loading has stopped, so the skeleton is no longer shown.
        During a download the view shows the skeleton, or the image it already
        had: a load after a failure shows the skeleton again until it ends. */
    method LoadImage(download: string -> Download, decodeImage: seq<bv8> -> Option<Image>) returns (requests: seq<string>)
      requires cache.Valid()
      modifies this, cache
      ensures cache.Valid()
      ensures !isLoading && !Content().Skeleton?
      ensures !HasURL() || urlString.value in old(cache.entries) ==> shown == old(shown) + [Content()]
      ensures HasURL() && urlString.value !in old(cache.entries) ==>
        shown == old(shown) + [if old(image).Some? then Picture(old(image).value) else Skeleton, Content()]
      ensures !HasURL() ==>
        requests == [] && hasError && image == old(image) && cache.entries == old(cache.entries)
      ensures HasURL() && urlString.value in old(cache.entries) ==>
        && requests == []
        && image == Some(old(cache.entries)[urlString.value].image)
        && hasError == old(hasError)
        && cache.entries == old(cache.entries)
      ensures HasURL() && urlString.value !in old(cache.entries) ==>
        requests == [urlString.value]
      ensures HasURL() && urlString.value !in old(cache.entries) &&
              DownloadedImage(urlString.value, download, decodeImage).Some? ==>
        && image == DownloadedImage(urlString.value, download, decodeImage)
        && !hasError
        && urlString.value in cache.entries
        && cache.entries[urlString.value] == Entry(image.value, Cost(image.value))
        && (forall k :: k in cache.entries && k != urlString.value ==>
              k in old(cache.entries) && cache.entries[k] == old(cache.entries)[k])
      ensures HasURL() && urlString.value !in old(cache.entries) &&
              DownloadedImage(urlString.value, download, decodeImage).None? ==>
        hasError && image == old(image) && cache.entries == old(cache.entries)
    {
      if !HasURL() {
        isLoading := false;
        hasError := true;
        shown := shown + [Content()];
        return [];
      }
      var key := urlString.value;
      var cached := cache.GetImage(key);
      if cached.Some? {
        image := cached;
        isLoading := false;
        shown := shown + [Content()];
        return [];
      }
      isLoading := true;
      hasError := false;
      requests := [key];
      shown := shown + [Content()];
      match download(key) {
        case Downloaded(data) =>
          var decoded := decodeImage(data);
          if decoded.Some? {
            cache.SetImage(decoded.value, key);
            image := decoded;
            isLoading := false;
          } else {
            isLoading := false;
            hasError := true;
          }
        case DownloadFailed(_) =>
          isLoading := false;
          hasError := true;
      }
      shown := shown + [Content()];
    }
  }

  /** A second load of the same URL is served from the cache: once a load has
      stored an image, loading again downloads nothing and shows that image. */
  method LoadTwice(view: AsyncImageView, download: string -> Download, decodeImage: seq<bv8> -> Option<Image>)
    returns (first: seq<string>, second: seq<string>)
    requires view.cache.Valid()
    requires view.HasURL() && view.urlString.value !in view.cache.entries
    requires DownloadedImage(view.urlString.value, download, decodeImage).Some?
    modifies view, view.cache
    ensures first == [view.urlString.value] && second == []
    ensures view.image == DownloadedImage(view.urlString.value, download, decodeImage)
    ensures view.Content() == Picture(DownloadedImage(view.urlString.value, download, decodeImage).value)
  {
    first := view.LoadImage(download, decodeImage);
    second := view.LoadImage(download, decodeImage);
  }
}

=== FILE: film_detail.dfy ===
/** The film detail screen's model (ViewModels/FilmDetailViewModel.swift) and
    the banner choice its view makes once a film is loaded. */
module FilmDetail {
  import opened Wrappers
  import opened Films
  import opened GhibliAPI
  import opened FilmList

  /** `film.movieBanner ?? film.image`: the banner image URL, falling back to
      the poster; none when the film has neither. */
  function BannerURL(film: Film): (url: Option<string>)
    ensures url.None? <==> film.movieBanner.None? && film.image.None?
    ensures film.movieBanner.Some? ==> url == film.movieBanner
    ensures film.movieBanner.None? ==> url == film.image
  {
    if film.movieBanner.Some? then film.movieBanner else film.image
  }

  class FilmDetailViewModel {
    var state: ViewState<Film>
    /** Every value `state` has been given, oldest first. */
    ghost var history: seq<ViewState<Film>>

    /** A new screen starts out loading. */
    constructor ()
      ensures state == Loading && history == [Loading]
    {
      state := Loading;
      history := [Loading];
    }

    /** `loadFilm(id:)`, which the view runs when it appears and again from
        the retry button: the state passes through `loading`, also from
        `error`, and then becomes the fetched film or the error's message. */
    method LoadFilm(id: string, transport: string -> TransportOutcome, localizedDescription: APIError -> string)
      modifies this
      ensures history == old(history) + [Loading, state]
      ensures FetchFilm(id, transport).result.Success? ==> state == Loaded(FetchFilm(id, transport).result.value)
      ensures FetchFilm(id, transport).result.Failure? ==>
                state == Error(ErrorDescription(FetchFilm(id, transport).result.error).value)
      ensures !state.Loading?
    {
      state := Loading;
      history := history + [state];
      var result := FetchFilm(id, transport).result;
      state := Settled(result, localizedDescription);
      history := history + [state];
    }
  }

  /** Retrying after a failure with an identifier that cannot form a URL
      fails the same way again, with the "URL inválida" message, without any
      request. */
  method RetryWithoutURL(vm: FilmDetailViewModel, id: string, transport: string -> TransportOutcome,
                         localizedDescription: APIError -> string)
    requires exists i :: 0 <= i < |id| && !IsURLCharacter(id[i])
    modifies vm
    ensures vm.state == Error(ErrorDescription(InvalidURL).value)
    ensures vm.history == old(vm.history) + [Loading, vm.state, Loading, vm.state]
  {
    FetchFilmWithoutURL(id, transport);
    vm.LoadFilm(id, transport, localizedDescription);
    vm.LoadFilm(id, transport, localizedDescription);
  }
}

=== FILE: film_list.dfy ===
/** The film list screen's model (ViewModels/FilmListViewModel.swift): a
    three-state screen that a load first puts into `loading` and then into
    `loaded` or `error`. */
module FilmList {
  import opened Wrappers
  import opened Films
  import opened GhibliAPI

  /** `ViewState<T>`: what a screen shows. */
  datatype ViewState<T> = Loading | Loaded(value: T) | Error(message: string)

  /** `(error as? APIError)?.errorDescription ?? error.localizedDescription`
      for an error the service threw.  The service only ever throws an
      `APIError`, and every `APIError` has a description, so the Foundation
      text passed in is never the one shown; the message is never empty. */
  function ErrorMessage(e: APIError, localizedDescription: string): (message: string)
    ensures message == ErrorDescription(e).value
    ensures |message| > 0
  {
    ErrorDescription(e).GetOr(localizedDescription)
  }

  /** Two errors give the same message exactly when they are the same kind
      of error, and for `httpError` carry the same code. */
  lemma ErrorMessagesDistinguishErrors(a: APIError, b: APIError, la: string, lb: string)
    ensures ErrorMessage(a, la) == ErrorMessage(b, lb) <==> SameMessageCase(a, b)
  {
    ErrorDescriptionDistinguishesCases(a, b);
  }

  /** The state a load ends in: the fetched value, or the message of the
      error the fetch threw. */
  function Settled<T>(result: Result<T, APIError>, localizedDescription: APIError -> string): (state: ViewState<T>)
    ensures result.Success? ==> state == Loaded(result.value)
    ensures result.Failure? ==> state == Error(ErrorDescription(result.error).value)
    ensures !state.Loading?
  {
    match result
    case Success(value) => Loaded(value)
    case Failure(e) => Error(ErrorMessage(e, localizedDescription(e)))
  }

  class FilmListViewModel {
    var state: ViewState<seq<Film>>
    /** Every value `state` has been given, oldest first: what an observer of
        the published property sees. */
    ghost var history: seq<ViewState<seq<Film>>>

    /** A new screen starts out loading. */
    constructor ()
      ensures state == Loading && history == [Loading]
    {
      state := Loading;
      history := [Loading];
    }

    /** `loadFilms()`: the state passes through `loading` (also when it was
        `loaded` or `error` before; earlier data is not kept) and then becomes
        the fetched list or the error's message, in exactly two steps.
        `localizedDescription` is Foundation's text for an error. */
    method LoadFilms(transport: string -> TransportOutcome, localizedDescription: APIError -> string)
      modifies this
      ensures history == old(history) + [Loading, state]
      ensures FetchFilms(transport).result.Success? ==> state == Loaded(FetchFilms(transport).result.value)
      ensures FetchFilms(transport).result.Failure? ==>
                state == Error(ErrorDescription(FetchFilms(transport).result.error).value)
      ensures !state.Loading?
    {
      state := Loading;
      history := history + [state];
      var result := FetchFilms(transport).result;
      state := Settled(result, localizedDescription);
      history := history + [state];
    }
  }

  /** A load against a server that answers `/films` with a 2xx status and a
      body encoding `films` shows exactly those films, an empty list
      included. */
  method LoadServedFilms(vm: FilmListViewModel, transport: string -> TransportOutcome,
                         localizedDescription: APIError -> string, films: seq<Film>, status: int)
    requires IsSuccessStatus(status)
    requires transport(FilmsURL()) == Completed(JsonText(EncodeFilmArray(films)), HTTPURLResponse(status))
    modifies vm
    ensures vm.state == Loaded(films)
    ensures vm.history == old(vm.history) + [Loading, Loaded(films)]
  {
    FetchFilmsReturnsBodyFilms(transport, films, status);
    vm.LoadFilms(transport, localizedDescription);
  }
}

=== FILE: films.dfy ===
/** The film record and its JSON coding (Models/Film.swift).

    `Film` is a `Codable` struct whose coding is synthesized by the Swift
    compiler over the `CodingKeys` table.  The JSON text itself is parsed by
    Foundation's JSONDecoder, which is not part of this model: decoding starts
    from an already parsed `Json` value. */
module Films {
  import opened Wrappers

  /** A parsed JSON value.  No film field is a number, so numbers are kept as
      integers. */
  datatype Json =
    | JNull
    | JBool(b: bool)
    | JNumber(n: int)
    | JString(str: string)
    | JArray(items: seq<Json>)
    | JObject(members: map<string, Json>)

  /** One step of a decoding error's coding path: an object key or an array index. */
  datatype PathItem = Key(name: string) | Index(position: nat)

  /** The cases of Swift's `DecodingError` that film decoding can raise. */
  datatype FailureKind = KeyNotFound | ValueNotFound | TypeMismatch | DataCorrupted

  datatype DecodeFailure = DecodeFailure(kind: FailureKind, path: seq<PathItem>)

  /** Ten required strings and two optional image URLs. `releaseDate`,
      `runningTime` and `rtScore` stay raw strings: nothing parses them. */
  datatype Film = Film(
    id: string,
    title: string,
    originalTitle: string,
    originalTitleRomanised: string,
    description: string,
    director: string,
    producer: string,
    releaseDate: string,
    runningTime: string,
    rtScore: string,
    image: Option<string>,
    movieBanner: Option<string>)

  /** The cases of `Film.CodingKeys`, in declaration order. */
  datatype CodingKey =
    | Id | Title | OriginalTitle | OriginalTitleRomanised | Description | Director
    | Producer | ReleaseDate | RunningTime | RtScore | Image | MovieBanner

  /** The raw value of each coding key: the JSON member name. */
  function StringValue(k: CodingKey): string {
    match k
    case Id => "id"
    case Title => "title"
    case OriginalTitle => "original_title"
    case OriginalTitleRomanised => "original_title_romanised"
    case Description => "description"
    case Director => "director"
    case Producer => "producer"
    case ReleaseDate => "release_date"
    case RunningTime => "running_time"
    case RtScore => "rt_score"
    case Image => "image"
    case MovieBanner => "movie_banner"
  }

  /** The coding keys in declaration order, which is the order the synthesized
      initializer decodes them in. */
  const AllKeys: seq<CodingKey> :=
    [Id, Title, OriginalTitle, OriginalTitleRomanised, Description, Director,
     Producer, ReleaseDate, RunningTime, RtScore, Image, MovieBanner]

  /** The two properties declared `String?`. */
  predicate IsOptional(k: CodingKey) {
    k == Image || k == MovieBanner
  }

  /** The property of `f` that key `k` codes; `None` only for an absent optional. */
  function Field(f: Film, k: CodingKey): (v: Option<string>)
    ensures !IsOptional(k) ==> v.Some?
  {
    match k
    case Id => Some(f.id)
    case Title => Some(f.title)
    case OriginalTitle => Some(f.originalTitle)
    case OriginalTitleRomanised => Some(f.originalTitleRomanised)
    case Description => Some(f.description)
    case Director => Some(f.director)
    case Producer => Some(f.producer)
    case ReleaseDate => Some(f.releaseDate)
    case RunningTime => Some(f.runningTime)
    case RtScore => Some(f.rtScore)
    case Image => f.image
    case MovieBanner => f.movieBanner
  }

  /** The string stored under `name`, if the object holds a string there. */
  function StringAt(obj: map<string, Json>, name: string): Option<string> {
    if name in obj && obj[name].JString? then Some(obj[name].str) else None
  }

  // ---------------------------------------------------------------------------
  // Decoding, as the synthesized `init(from:)` does it
  // ---------------------------------------------------------------------------

  /** `container.decode(String.self, forKey: k)`: the key must be present and
      hold a string; null is `valueNotFound`, another type `typeMismatch`. */
  function DecodeString(obj: map<string, Json>, k: CodingKey, path: seq<PathItem>): Result<string, DecodeFailure> {
    var name := StringValue(k);
    if name !in obj then Failure(DecodeFailure(KeyNotFound, path + [Key(name)]))
    else match obj[name]
      case JString(s) => Success(s)
      case JNull => Failure(DecodeFailure(ValueNotFound, path + [Key(name)]))
      case _ => Failure(DecodeFailure(TypeMismatch, path + [Key(name)]))
  }

  /** `container.decodeIfPresent(String.self, forKey: k)`: a missing key or a
      null gives nil, a string gives that string, any other value is a
      `typeMismatch`. */
  function DecodeStringIfPresent(obj: map<string, Json>, k: CodingKey, path: seq<PathItem>): Result<Option<string>, DecodeFailure> {
    var name := StringValue(k);
    if name !in obj then Success(None)
    else match obj[name]
      case JString(s) => Success(Some(s))
      case JNull => Success(None)
      case _ => Failure(DecodeFailure(TypeMismatch, path + [Key(name)]))
  }

  /** `Film(from: decoder)` for the value at coding path `path`: a keyed
      container is required, then every property is decoded under its key.
      As with `JSONDecoder`, asking for a container where the value is null is
      `valueNotFound`, and where it is any other non-object `typeMismatch`. */
  function DecodeFilm(j: Json, path: seq<PathItem>): (r: Result<Film, DecodeFailure>)
    ensures j.JNull? ==> r == Failure(DecodeFailure(ValueNotFound, path))
    ensures !j.JObject? && !j.JNull? ==> r == Failure(DecodeFailure(TypeMismatch, path))
    ensures j.JObject? ==> r == DecodeFilmObject(j.members, path)
  {
    if j.JNull? then Failure(DecodeFailure(ValueNotFound, path))
    else if !j.JObject? then Failure(DecodeFailure(TypeMismatch, path))
    else DecodeFilmObject(j.members, path)
  }

  /** The synthesized initializer's body: the properties in declaration order,
      the first failure being thrown. */
  function DecodeFilmObject(obj: map<string, Json>, path: seq<PathItem>): Result<Film, DecodeFailure> {
    match DecodeKeys(obj, AllKeys, path)
    case Failure(e) => Failure(e)
    case Success(values) =>
      RequiredKeysFirst();
      Success(FilmOf(values))
  }

  /** One property: `decodeIfPresent` for an optional key, `decode` otherwise. */
  function DecodeKey(obj: map<string, Json>, k: CodingKey, path: seq<PathItem>): Result<Option<string>, DecodeFailure> {
    if IsOptional(k) then DecodeStringIfPresent(obj, k, path)
    else match DecodeString(obj, k, path)
      case Failure(e) => Failure(e)
      case Success(s) => Success(Some(s))
  }

  /** Decodes `keys` one after the other, stopping at the first failure; a
      success holds the string found under each key. */
  function DecodeKeys(obj: map<string, Json>, keys: seq<CodingKey>, path: seq<PathItem>): (r: Result<seq<Option<string>>, DecodeFailure>)
    ensures r.Success? ==> |r.value| == |keys|
    ensures r.Success? ==> forall i :: 0 <= i < |keys| ==> r.value[i] == StringAt(obj, StringValue(keys[i]))
    ensures r.Success? ==> forall i :: 0 <= i < |keys| && !IsOptional(keys[i]) ==> r.value[i].Some?
    decreases |keys|
  {
    if keys == [] then Success([])
    else match DecodeKey(obj, keys[0], path)
      case Failure(e) => Failure(e)
      case Success(v) =>
        match DecodeKeys(obj, keys[1..], path)
        case Failure(e) => Failure(e)
        case Success(rest) => Success([v] + rest)
  }

  /** The film whose properties, in declaration order, are `values`. */
  function FilmOf(values: seq<Option<string>>): Film
    requires |values| == |AllKeys|
    requires forall i :: 0 <= i < 10 ==> values[i].Some?
  {
    Film(values[0].value, values[1].value, values[2].value, values[3].value, values[4].value,
         values[5].value, values[6].value, values[7].value, values[8].value, values[9].value,
         values[10], values[11])
  }

  /** `Array<Element>` decoding, generic as in Swift: an unkeyed container
      whose elements are decoded in index order, the first failing element
      deciding the error.  A null in place of the array is `valueNotFound`,
      any other non-array `typeMismatch`. */
  function DecodeArray<T>(j: Json, path: seq<PathItem>, decodeElement: (Json, seq<PathItem>) -> Result<T, DecodeFailure>): (r: Result<seq<T>, DecodeFailure>)
    ensures j.JNull? ==> r == Failure(DecodeFailure(ValueNotFound, path))
    ensures !j.JArray? && !j.JNull? ==> r == Failure(DecodeFailure(TypeMismatch, path))
    ensures r.Success? ==> j.JArray? && |r.value| == |j.items|
    ensures r.Success? ==> forall i :: 0 <= i < |j.items| ==> decodeElement(j.items[i], path + [Index(i)]) == Success(r.value[i])
  {
    if j.JNull? then Failure(DecodeFailure(ValueNotFound, path))
    else if !j.JArray? then Failure(DecodeFailure(TypeMismatch, path))
    else DecodeElements(j.items, 0, path, decodeElement)
  }

  /** Decodes `items`, which sit at index `from` onwards of the array at `path`. */
  function DecodeElements<T>(items: seq<Json>, from: nat, path: seq<PathItem>, decodeElement: (Json, seq<PathItem>) -> Result<T, DecodeFailure>): (r: Result<seq<T>, DecodeFailure>)
    ensures r.Success? ==> |r.value| == |items|
    ensures r.Success? ==> forall i :: 0 <= i < |items| ==> decodeElement(items[i], path + [Index(from + i)]) == Success(r.value[i])
    decreases |items|
  {
    if items == [] then Success([])
    else match decodeElement(items[0], path + [Index(from)])
      case Failure(e) => Failure(e)
      case Success(first) =>
        match DecodeElements(items[1..], from + 1, path, decodeElement)
        case Failure(e) => Failure(e)
        case Success(rest) =>
          assert forall i :: 1 <= i < |items| ==> items[i] == items[1..][i - 1];
          Success([first] + rest)
  }

  /** `[Film]` decoding. */
  function DecodeFilmArray(j: Json, path: seq<PathItem>): Result<seq<Film>, DecodeFailure> {
    DecodeArray(j, path, DecodeFilm)
  }

  // ---------------------------------------------------------------------------
  // Encoding, as the synthesized `encode(to:)` does it
  // ---------------------------------------------------------------------------

  /** The keys `f` writes, in declaration order: all of them except a nil
      optional, which `encodeIfPresent` skips. */
  function PresentKeys(f: Film): (ks: seq<CodingKey>)
    ensures forall k :: k in ks <==> Field(f, k).Some?
  {
    AllKeysComplete();
    Present(f, AllKeys)
  }

  function Present(f: Film, keys: seq<CodingKey>): (ks: seq<CodingKey>)
    ensures forall k :: k in ks <==> k in keys && Field(f, k).Some?
  {
    if keys == [] then []
    else if Field(f, keys[0]).Some? then [keys[0]] + Present(f, keys[1..])
    else Present(f, keys[1..])
  }

  /** The container after encoding `keys` one after the other. */
  function EncodeKeys(f: Film, keys: seq<CodingKey>): map<string, Json>
    requires forall k :: k in keys ==> Field(f, k).Some?
  {
    if keys == [] then map[]
    else
      var last := keys[|keys| - 1];
      EncodeKeys(f, keys[..|keys| - 1])[StringValue(last) := JString(Field(f, last).value)]
  }

  /** `film.encode(to:)`: every property under its key, in declaration order,
      the optional ones with `encodeIfPresent`, so a nil optional leaves its
      key out. */
  function EncodeFilm(f: Film): Json {
    JObject(EncodeKeys(f, PresentKeys(f)))
  }

  /** `Array<Element>` encoding: one element after the other. */
  function EncodeArray<T>(xs: seq<T>, encodeElement: T -> Json): (j: Json)
    ensures j.JArray? && |j.items| == |xs|
    ensures forall i :: 0 <= i < |xs| ==> j.items[i] == encodeElement(xs[i])
  {
    JArray(seq(|xs|, i requires 0 <= i < |xs| => encodeElement(xs[i])))
  }

  function EncodeFilmArray(films: seq<Film>): Json {
    EncodeArray(films, EncodeFilm)
  }

  // ---------------------------------------------------------------------------
  // Properties of the key table
  // ---------------------------------------------------------------------------

  /** The twelve JSON member names are pairwise distinct, so the key table is
      injective. */
  lemma StringValueInjective(a: CodingKey, b: CodingKey)
    ensures StringValue(a) == StringValue(b) <==> a == b
  {
  }

  /** `AllKeys` lists every key, each exactly once. */
  lemma AllKeysComplete()
    ensures forall k :: k in AllKeys
    ensures |AllKeys| == 12
    ensures forall i, j :: 0 <= i < j < |AllKeys| ==> AllKeys[i] != AllKeys[j]
  {
    forall k ensures k in AllKeys {
      match k
      case Id => assert AllKeys[0] == k;
      case Title => assert AllKeys[1] == k;
      case OriginalTitle => assert AllKeys[2] == k;
      case OriginalTitleRomanised => assert AllKeys[3] == k;
      case Description => assert AllKeys[4] == k;
      case Director => assert AllKeys[5] == k;
      case Producer => assert AllKeys[6] == k;
      case ReleaseDate => assert AllKeys[7] == k;
      case RunningTime => assert AllKeys[8] == k;
      case RtScore => assert AllKeys[9] == k;
      case Image => assert AllKeys[10] == k;
      case MovieBanner => assert AllKeys[11] == k;
    }
  }

  /** The ten required keys come first in the table, the two optional ones last. */
  lemma RequiredKeysFirst()
    ensures forall i :: 0 <= i < |AllKeys| ==> (IsOptional(AllKeys[i]) <==> i >= 10)
  {
  }

  /** Two films with the same value under every key are the same film. */
  lemma FieldsDetermineFilm(f: Film, g: Film)
    requires forall k :: Field(f, k) == Field(g, k)
    ensures f == g
  {
    assert Field(f, Id) == Field(g, Id);
    assert Field(f, Title) == Field(g, Title);
    assert Field(f, OriginalTitle) == Field(g, OriginalTitle);
    assert Field(f, OriginalTitleRomanised) == Field(g, OriginalTitleRomanised);
    assert Field(f, Description) == Field(g, Description);
    assert Field(f, Director) == Field(g, Director);
    assert Field(f, Producer) == Field(g, Producer);
    assert Field(f, ReleaseDate) == Field(g, ReleaseDate);
    assert Field(f, RunningTime) == Field(g, RunningTime);
    assert Field(f, RtScore) == Field(g, RtScore);
    assert Field(f, Image) == Field(g, Image);
    assert Field(f, MovieBanner) == Field(g, MovieBanner);
  }

  // ---------------------------------------------------------------------------
  // Properties of encoding
  // ---------------------------------------------------------------------------

  /** After encoding `keys`, the container holds exactly their names, each
      with the property's string. */
  lemma {:induction false} EncodeKeysLookup(f: Film, keys: seq<CodingKey>, k: CodingKey)
    requires forall k' :: k' in keys ==> Field(f, k').Some?
    ensures StringValue(k) in EncodeKeys(f, keys) <==> k in keys
    ensures k in keys ==> EncodeKeys(f, keys)[StringValue(k)] == JString(Field(f, k).value)
    decreases |keys|
  {
    if keys != [] {
      var last := keys[|keys| - 1];
      var init := keys[..|keys| - 1];
      assert keys == init + [last];
      EncodeKeysLookup(f, init, k);
      StringValueInjective(k, last);
    }
  }

  lemma {:induction false} EncodeKeysDomain(f: Film, keys: seq<CodingKey>, name: string)
    requires forall k' :: k' in keys ==> Field(f, k').Some?
    requires name in EncodeKeys(f, keys)
    ensures exists k :: k in keys && StringValue(k) == name
    decreases |keys|
  {
    var last := keys[|keys| - 1];
    var init := keys[..|keys| - 1];
    if name != StringValue(last) {
      EncodeKeysDomain(f, init, name);
    }
  }

  /** The encoded object holds exactly the present properties, each as a
      string under its own key from the table, and nothing else. */
  lemma EncodeFilmMembers(f: Film, k: CodingKey)
    ensures StringValue(k) in EncodeFilm(f).members <==> Field(f, k).Some?
    ensures Field(f, k).Some? ==> EncodeFilm(f).members[StringValue(k)] == JString(Field(f, k).value)
    ensures forall name :: name in EncodeFilm(f).members ==> exists k' :: StringValue(k') == name
  {
    EncodeKeysLookup(f, PresentKeys(f), k);
    forall name | name in EncodeFilm(f).members ensures exists k' :: StringValue(k') == name {
      EncodeKeysDomain(f, PresentKeys(f), name);
    }
  }

  lemma DecodeEncodedKey(f: Film, k: CodingKey, path: seq<PathItem>)
    ensures DecodeKey(EncodeFilm(f).members, k, path) == Success(Field(f, k))
  {
    EncodeFilmMembers(f, k);
  }

  /** The properties of `f` under `keys`, in that order. */
  function FieldsOf(f: Film, keys: seq<CodingKey>): (values: seq<Option<string>>)
    ensures |values| == |keys|
    ensures forall i :: 0 <= i < |keys| ==> values[i] == Field(f, keys[i])
  {
    seq(|keys|, i requires 0 <= i < |keys| => Field(f, keys[i]))
  }

  lemma {:induction false} DecodeKeysOfEncoded(f: Film, keys: seq<CodingKey>, path: seq<PathItem>)
    ensures DecodeKeys(EncodeFilm(f).members, keys, path) == Success(FieldsOf(f, keys))
    decreases |keys|
  {
    if keys != [] {
      DecodeEncodedKey(f, keys[0], path);
      DecodeKeysOfEncoded(f, keys[1..], path);
      assert FieldsOf(f, keys) == [Field(f, keys[0])] + FieldsOf(f, keys[1..]);
    }
  }

  /** Each key of the table reads back its own position of `FilmOf`. */
  lemma FieldOfFilmOf(values: seq<Option<string>>)
    requires |values| == |AllKeys|
    requires forall i :: 0 <= i < 10 ==> values[i].Some?
    ensures forall i :: 0 <= i < |AllKeys| ==> Field(FilmOf(values), AllKeys[i]) == values[i]
  {
    var f := FilmOf(values);
    assert Field(f, AllKeys[0]) == values[0];
    assert Field(f, AllKeys[1]) == values[1];
    assert Field(f, AllKeys[2]) == values[2];
    assert Field(f, AllKeys[3]) == values[3];
    assert Field(f, AllKeys[4]) == values[4];
    assert Field(f, AllKeys[5]) == values[5];
    assert Field(f, AllKeys[6]) == values[6];
    assert Field(f, AllKeys[7]) == values[7];
    assert Field(f, AllKeys[8]) == values[8];
    assert Field(f, AllKeys[9]) == values[9];
    assert Field(f, AllKeys[10]) == values[10];
    assert Field(f, AllKeys[11]) == values[11];
    forall i | 0 <= i < |AllKeys| ensures Field(f, AllKeys[i]) == values[i] {
      assert i in {0, 1, 2, 3, 4, 5, 6, 7, 8, 9, 10, 11};
    }
  }

  /** The film rebuilt from its own properties is that film. */
  lemma FilmOfFields(f: Film)
    ensures FilmOf(FieldsOf(f, AllKeys)) == f
  {
    var values := FieldsOf(f, AllKeys);
    FieldOfFilmOf(values);
    AllKeysComplete();
    forall k ensures Field(FilmOf(values), k) == Field(f, k) {
      var i :| 0 <= i < |AllKeys| && AllKeys[i] == k;
    }
    FieldsDetermineFilm(FilmOf(values), f);
  }

  /** Encoding a film and decoding the result gives the same film back, at any
      coding path. */
  lemma FilmRoundTrip(f: Film, path: seq<PathItem>)
    ensures DecodeFilm(EncodeFilm(f), path) == Success(f)
  {
    DecodeKeysOfEncoded(f, AllKeys, path);
    FilmOfFields(f);
  }

  /** An element coding that round-trips at every path gives an array coding
      that round-trips. */
  lemma {:induction false} ArrayRoundTrip<T>(xs: seq<T>, from: nat, path: seq<PathItem>,
                                           encodeElement: T -> Json, decodeElement: (Json, seq<PathItem>) -> Result<T, DecodeFailure>)
    requires forall x, p :: decodeElement(encodeElement(x), p) == Success(x)
    ensures DecodeElements(EncodeArray(xs, encodeElement).items, from, path, decodeElement) == Success(xs)
    decreases |xs|
  {
    if xs != [] {
      assert decodeElement(encodeElement(xs[0]), path + [Index(from)]) == Success(xs[0]);
      ArrayRoundTrip(xs[1..], from + 1, path, encodeElement, decodeElement);
      assert EncodeArray(xs, encodeElement).items[1..] == EncodeArray(xs[1..], encodeElement).items;
      assert xs == [xs[0]] + xs[1..];
    }
  }

  /** The film round trip for a whole `[Film]`. */
  lemma FilmArrayRoundTrip(films: seq<Film>, path: seq<PathItem>)
    ensures DecodeFilmArray(EncodeFilmArray(films), path) == Success(films)
  {
    forall f, p ensures DecodeFilm(EncodeFilm(f), p) == Success(f) {
      FilmRoundTrip(f, p);
    }
    ArrayRoundTrip(films, 0, path, EncodeFilm, DecodeFilm);
  }

  // ---------------------------------------------------------------------------
  // Properties of decoding
  // ---------------------------------------------------------------------------

  /** The outcome of decoding one key on its own: `None` when it decodes,
      otherwise the error the synthesized initializer raises for it. */
  function KeyError(obj: map<string, Json>, k: CodingKey, path: seq<PathItem>): Option<DecodeFailure> {
    var name := StringValue(k);
    if name in obj && obj[name].JString? then None
    else if IsOptional(k) && (name !in obj || obj[name].JNull?) then None
    else if name !in obj then Some(DecodeFailure(KeyNotFound, path + [Key(name)]))
    else if obj[name].JNull? then Some(DecodeFailure(ValueNotFound, path + [Key(name)]))
    else Some(DecodeFailure(TypeMismatch, path + [Key(name)]))
  }

  /** The error of the first key in `keys` that does not decode, if any. */
  function FirstKeyError(obj: map<string, Json>, keys: seq<CodingKey>, path: seq<PathItem>): Option<DecodeFailure> {
    if keys == [] then None
    else if KeyError(obj, keys[0], path).Some? then KeyError(obj, keys[0], path)
    else FirstKeyError(obj, keys[1..], path)
  }

  /** Decoding `keys` fails exactly when one of them fails on its own, and
      then with the error of the first that does. */
  lemma {:induction false} DecodeKeysReportsFirstFailure(obj: map<string, Json>, keys: seq<CodingKey>, path: seq<PathItem>)
    ensures DecodeKeys(obj, keys, path).Failure? <==> FirstKeyError(obj, keys, path).Some?
    ensures DecodeKeys(obj, keys, path).Failure? ==> DecodeKeys(obj, keys, path).error == FirstKeyError(obj, keys, path).value
    decreases |keys|
  {
    if keys != [] {
      DecodeKeysReportsFirstFailure(obj, keys[1..], path);
    }
  }

  /** Decoding a JSON object fails exactly when some key fails, and then with
      the error of the first failing key in declaration order. */
  lemma DecodeFilmReportsFirstFailure(obj: map<string, Json>, path: seq<PathItem>)
    ensures FirstKeyError(obj, AllKeys, path).Some? ==>
              DecodeFilm(JObject(obj), path) == Failure(FirstKeyError(obj, AllKeys, path).value)
    ensures FirstKeyError(obj, AllKeys, path).None? ==> DecodeFilm(JObject(obj), path).Success?
  {
    DecodeKeysReportsFirstFailure(obj, AllKeys, path);
  }

  lemma {:induction false} FirstKeyErrorNone(obj: map<string, Json>, keys: seq<CodingKey>, path: seq<PathItem>)
    ensures FirstKeyError(obj, keys, path).None? <==> forall k :: k in keys ==> KeyError(obj, k, path).None?
    decreases |keys|
  {
    if keys != [] {
      FirstKeyErrorNone(obj, keys[1..], path);
      assert forall k :: k in keys <==> k == keys[0] || k in keys[1..];
    }
  }

  /** A JSON object decodes to a film exactly when every key decodes on its
      own: each required key holds a string, and each optional key is
      missing, null or a string. */
  lemma DecodeFilmSucceedsIff(obj: map<string, Json>, path: seq<PathItem>)
    ensures DecodeFilm(JObject(obj), path).Success? <==> forall k :: KeyError(obj, k, path).None?
  {
    DecodeFilmReportsFirstFailure(obj, path);
    FirstKeyErrorNone(obj, AllKeys, path);
    AllKeysComplete();
  }

  /** A required key that is missing, null or not a string makes decoding fail. */
  lemma MissingRequiredKeyFails(obj: map<string, Json>, path: seq<PathItem>, k: CodingKey)
    requires !IsOptional(k)
    requires StringValue(k) !in obj || !obj[StringValue(k)].JString?
    ensures DecodeFilm(JObject(obj), path).Failure?
  {
    DecodeFilmSucceedsIff(obj, path);
  }

  /** A decoded film holds exactly the strings found under the table's keys:
      a missing or null optional becomes `None`, and nothing is converted. */
  lemma DecodedFieldsAreJsonStrings(obj: map<string, Json>, path: seq<PathItem>, k: CodingKey)
    requires DecodeFilm(JObject(obj), path).Success?
    ensures Field(DecodeFilm(JObject(obj), path).value, k) == StringAt(obj, StringValue(k))
  {
    var values := DecodeKeys(obj, AllKeys, path).value;
    RequiredKeysFirst();
    assert DecodeFilm(JObject(obj), path).value == FilmOf(values);
    FieldOfFilmOf(values);
    AllKeysComplete();
    var i :| 0 <= i < |AllKeys| && AllKeys[i] == k;
    assert values[i] == StringAt(obj, StringValue(AllKeys[i]));
  }

  /** One element that does not decode makes the whole array fail. */
  lemma {:induction false} ArrayFailsIfElementFails<T>(items: seq<Json>, from: nat, path: seq<PathItem>,
                                                      decodeElement: (Json, seq<PathItem>) -> Result<T, DecodeFailure>, i: nat)
    requires i < |items|
    requires decodeElement(items[i], path + [Index(from + i)]).Failure?
    ensures DecodeElements(items, from, path, decodeElement).Failure?
    decreases |items|
  {
    if i > 0 && decodeElement(items[0], path + [Index(from)]).Success? {
      ArrayFailsIfElementFails(items[1..], from + 1, path, decodeElement, i - 1);
    }
  }

  /** The array's decoding error is that of its first failing element, at
      that element's index. */
  lemma {:induction false} DecodeElementsReportsFirstFailure<T>(items: seq<Json>, from: nat, path: seq<PathItem>,
                                                               decodeElement: (Json, seq<PathItem>) -> Result<T, DecodeFailure>, i: nat)
    requires i < |items|
    requires forall j :: 0 <= j < i ==> decodeElement(items[j], path + [Index(from + j)]).Success?
    requires decodeElement(items[i], path + [Index(from + i)]).Failure?
    ensures DecodeElements(items, from, path, decodeElement) == Failure(decodeElement(items[i], path + [Index(from + i)]).error)
    decreases |items|
  {
    if i > 0 {
      assert decodeElement(items[0], path + [Index(from + 0)]).Success?;
      var rest := items[1..];
      forall j | 0 <= j < i - 1 ensures decodeElement(rest[j], path + [Index(from + 1 + j)]).Success? {
        assert rest[j] == items[j + 1] && from + 1 + j == from + (j + 1);
      }
      assert rest[i - 1] == items[i] && from + 1 + (i - 1) == from + i;
      DecodeElementsReportsFirstFailure(rest, from + 1, path, decodeElement, i - 1);
    }
  }
}

=== FILE: ghibli_api.dfy ===
/** The fetch client (Services/GhibliAPIService.swift): the closed error
    taxonomy with its user-facing messages, and the chain of checks that turns
    what the transport delivered into a film, a film list or an `APIError`.

    The network is a parameter: `transport` gives, for each request URL, what
    `session.data(from:)` would deliver.  A fetch returns the URLs it requested
    along with its result, so that "no request is issued" can be stated. */
module GhibliAPI {
  import opened Wrappers
  import opened Films

  /** `APIError`.  The wrapped Swift `Error` of the last two cases is kept as
      the decoding failure, or as an opaque description of the transport
      error. */
  datatype APIError =
    | InvalidURL
    | InvalidResponse
    | HttpError(statusCode: int)
    | DecodingError(failure: DecodeFailure)
    | NetworkError(underlying: string)

  // ---------------------------------------------------------------------------
  // Decimal rendering of the status code, as Swift's string interpolation does
  // ---------------------------------------------------------------------------

  predicate IsDigit(c: char) {
    '0' <= c <= '9'
  }

  predicate AllDigits(s: string) {
    forall i :: 0 <= i < |s| ==> IsDigit(s[i])
  }

  function DigitChar(d: nat): (c: char)
    requires d < 10
    ensures IsDigit(c) && c as int - '0' as int == d
  {
    ('0' as int + d) as char
  }

  /** The decimal digits of `n`, most significant first, without leading zeros. */
  function NatToDecimal(n: nat): (s: string)
    ensures |s| >= 1 && AllDigits(s)
    decreases n
  {
    if n < 10 then [DigitChar(n)] else NatToDecimal(n / 10) + [DigitChar(n % 10)]
  }

  /** The number a string of decimal digits denotes. */
  function DecimalValue(s: string): nat
    requires AllDigits(s)
  {
    if s == [] then 0 else DecimalValue(s[..|s| - 1]) * 10 + (s[|s| - 1] as int - '0' as int)
  }

  /** `"\(n)"` for an `Int`: a minus sign for negative values, then the digits. */
  function IntToString(n: int): string {
    if n < 0 then "-" + NatToDecimal(-n) else NatToDecimal(n)
  }

  /** The inverse of `IntToString`: an optional minus sign followed by at
      least one digit. */
  function ParseInt(s: string): Option<int> {
    if |s| >= 2 && s[0] == '-' && AllDigits(s[1..]) then Some(-(DecimalValue(s[1..]) as int))
    else if |s| >= 1 && AllDigits(s) then Some(DecimalValue(s))
    else None
  }

  lemma {:induction false} DecimalRoundTrip(n: nat)
    ensures DecimalValue(NatToDecimal(n)) == n
    decreases n
  {
    if n >= 10 {
      DecimalRoundTrip(n / 10);
      var s := NatToDecimal(n);
      assert s[..|s| - 1] == NatToDecimal(n / 10);
    }
  }

  /** Rendering a status code and parsing it back gives the same code. */
  lemma IntToStringRoundTrip(n: int)
    ensures ParseInt(IntToString(n)) == Some(n)
  {
    if n < 0 {
      DecimalRoundTrip(-n);
      assert IntToString(n)[1..] == NatToDecimal(-n);
    } else {
      DecimalRoundTrip(n);
    }
  }

  /** Distinct codes render as distinct strings. */
  lemma IntToStringInjective(a: int, b: int)
    ensures IntToString(a) == IntToString(b) <==> a == b
  {
    IntToStringRoundTrip(a);
    IntToStringRoundTrip(b);
  }

  // ---------------------------------------------------------------------------
  // errorDescription
  // ---------------------------------------------------------------------------

  const HttpErrorPrefix: string := "Erro HTTP: "

  /** `errorDescription`: a fixed Portuguese message per case, the HTTP one
      carrying the status code.  It is never nil. */
  function ErrorDescription(e: APIError): (message: Option<string>)
    ensures message.Some?
  {
    match e
    case InvalidURL => Some("URL inválida")
    case InvalidResponse => Some("Resposta inválida do servidor")
    case HttpError(statusCode) => Some(HttpErrorPrefix + IntToString(statusCode))
    case DecodingError(_) => Some("Erro ao decodificar os dados")
    case NetworkError(_) => Some("Erro de conexão. Verifique sua internet.")
  }

  /** Two errors a user cannot tell apart by their message: the same case,
      and for HTTP errors the same status code. */
  predicate SameMessageCase(a: APIError, b: APIError) {
    || (a.InvalidURL? && b.InvalidURL?)
    || (a.InvalidResponse? && b.InvalidResponse?)
    || (a.HttpError? && b.HttpError? && a.statusCode == b.statusCode)
    || (a.DecodingError? && b.DecodingError?)
    || (a.NetworkError? && b.NetworkError?)
  }

  /** The message of an HTTP error holds its status code after the prefix. */
  lemma HttpErrorMessageCarriesCode(code: int)
    ensures var m := ErrorDescription(HttpError(code)).value;
      |m| > |HttpErrorPrefix| && m[..|HttpErrorPrefix|] == HttpErrorPrefix &&
      ParseInt(m[|HttpErrorPrefix|..]) == Some(code)
  {
    var m := ErrorDescription(HttpError(code)).value;
    assert m[|HttpErrorPrefix|..] == IntToString(code);
    IntToStringRoundTrip(code);
  }

  /** Messages differ exactly when the cases differ, or the status codes do. */
  lemma ErrorDescriptionDistinguishesCases(a: APIError, b: APIError)
    ensures ErrorDescription(a) == ErrorDescription(b) <==> SameMessageCase(a, b)
  {
    var ma, mb := ErrorDescription(a).value, ErrorDescription(b).value;
    if a.HttpError? && b.HttpError? {
      if ma == mb {
        assert ma[|HttpErrorPrefix|..] == IntToString(a.statusCode);
        assert mb[|HttpErrorPrefix|..] == IntToString(b.statusCode);
        IntToStringInjective(a.statusCode, b.statusCode);
      }
    } else if a.HttpError? {
      assert ma[5] == 'H' && mb[5] != 'H';
    } else if b.HttpError? {
      assert mb[5] == 'H' && ma[5] != 'H';
    }
  }

  // ---------------------------------------------------------------------------
  // URLs
  // ---------------------------------------------------------------------------

  const BaseURL: string := "https://ghibliapi.vercel.app"

  function FilmsURL(): string {
    BaseURL + "/films"
  }

  function FilmURL(id: string): string {
    BaseURL + "/films/" + id
  }

  /** A character that may appear in a URI reference (section 2 of RFC 3986):
      unreserved, reserved, or the `%` of a percent-encoding. */
  predicate IsURLCharacter(c: char) {
    || 'a' <= c <= 'z' || 'A' <= c <= 'Z' || '0' <= c <= '9'
    || c in "-._~:/?#[]@!$&'()*+,;=%"
  }

  /** Whether `URL(string:)` yields a URL: a non-empty string of URI
      characters. */
  predicate ParsesAsURL(s: string) {
    |s| > 0 && forall i :: 0 <= i < |s| ==> IsURLCharacter(s[i])
  }

  lemma FilmsURLParses()
    ensures ParsesAsURL(FilmsURL())
  {
    var u := FilmsURL();
    forall i | 0 <= i < |u| ensures IsURLCharacter(u[i]) {
      assert u[i] in "https://ghibliapi.vercel.app/films";
    }
  }

  /** The fixed part of a film's URL is made of URI characters. */
  lemma FilmURLPrefixParses()
    ensures ParsesAsURL(BaseURL + "/films/")
  {
    var prefix := BaseURL + "/films/";
    forall i | 0 <= i < |prefix| ensures IsURLCharacter(prefix[i]) {
      assert prefix[i] in "https://ghibliapi.vercel.app/films/";
    }
  }

  /** The URL of one film can be built exactly when the identifier holds only
      URI characters. */
  lemma FilmURLParsesIff(id: string)
    ensures ParsesAsURL(FilmURL(id)) <==> forall i :: 0 <= i < |id| ==> IsURLCharacter(id[i])
  {
    var prefix := BaseURL + "/films/";
    var u := FilmURL(id);
    assert u == prefix + id;
    FilmURLPrefixParses();
    if forall i :: 0 <= i < |id| ==> IsURLCharacter(id[i]) {
      forall i | 0 <= i < |u| ensures IsURLCharacter(u[i]) {
        if i < |prefix| {
          assert u[i] == prefix[i];
        } else {
          assert u[i] == id[i - |prefix|];
        }
      }
    } else {
      var j :| 0 <= j < |id| && !IsURLCharacter(id[j]);
      assert u[|prefix| + j] == id[j];
    }
  }

  // ---------------------------------------------------------------------------
  // What the transport delivers
  // ---------------------------------------------------------------------------

  /** The `URLResponse` delivered with the data: an `HTTPURLResponse` with its
      status code, or a response of any other class. */
  datatype Response = HTTPURLResponse(statusCode: int) | OtherURLResponse

  /** The body bytes, seen through JSONDecoder's parser: well-formed JSON, or
      not JSON at all. */
  datatype Body = JsonText(value: Json) | NotJson

  /** An error thrown by `session.data(from:)`.  An injected session may throw
      an `APIError` itself; anything else (a `URLError`) is foreign. */
  datatype Thrown = Api(error: APIError) | Foreign(description: string)

  datatype TransportOutcome = Completed(data: Body, response: Response) | Threw(thrown: Thrown)

  /** The result of one fetch, with the URLs it sent requests to. */
  datatype Call<T> = Call(requests: seq<string>, result: Result<T, APIError>)

  /** `(200...299).contains(code)`: the "Successful 2xx" class of section 15.3
      of RFC 9110, both ends included. */
  predicate IsSuccessStatus(code: int) {
    200 <= code <= 299
  }

  /** `JSONDecoder().decode(T.self, from: data)`: bytes that are not JSON are
      `dataCorrupted`; otherwise the value is decoded at the empty coding path. */
  function DecodeBody<T>(body: Body, decode: (Json, seq<PathItem>) -> Result<T, DecodeFailure>): Result<T, DecodeFailure> {
    match body
    case NotJson => Failure(DecodeFailure(DataCorrupted, []))
    case JsonText(j) => decode(j, [])
  }

  /** The `do` block: the transport call, the response checks and the
      decoding; whatever it throws is returned as a `Thrown`. */
  function DoBlock<T>(outcome: TransportOutcome, decode: (Json, seq<PathItem>) -> Result<T, DecodeFailure>): Result<T, Thrown> {
    match outcome
    case Threw(thrown) => Failure(thrown)
    case Completed(data, response) =>
      match response
      case OtherURLResponse => Failure(Api(InvalidResponse))
      case HTTPURLResponse(statusCode) =>
        if !IsSuccessStatus(statusCode) then Failure(Api(HttpError(statusCode)))
        else match DecodeBody(data, decode)
          case Failure(cause) => Failure(Api(DecodingError(cause)))
          case Success(value) => Success(value)
  }

  /** The two `catch` clauses: an `APIError` is rethrown unchanged, anything
      else becomes `networkError`. */
  function Catch<T>(r: Result<T, Thrown>): Result<T, APIError> {
    match r
    case Success(value) => Success(value)
    case Failure(Api(e)) => Failure(e)
    case Failure(Foreign(description)) => Failure(NetworkError(description))
  }

  /** Everything a fetch does after its URL is built.  The first failing check
      decides the error: a thrown error, then the response class, then the
      status, then decoding; a success is the decoded value unchanged. */
  function HandleOutcome<T>(outcome: TransportOutcome, decode: (Json, seq<PathItem>) -> Result<T, DecodeFailure>): (r: Result<T, APIError>)
    ensures outcome.Threw? && outcome.thrown.Api? ==> r == Failure(outcome.thrown.error)
    ensures outcome.Threw? && outcome.thrown.Foreign? ==> r == Failure(NetworkError(outcome.thrown.description))
    ensures outcome.Completed? && outcome.response.OtherURLResponse? ==> r == Failure(InvalidResponse)
    ensures outcome.Completed? && outcome.response.HTTPURLResponse? && !IsSuccessStatus(outcome.response.statusCode) ==>
              r == Failure(HttpError(outcome.response.statusCode))
    ensures r.Success? <==>
              && outcome.Completed? && outcome.response.HTTPURLResponse?
              && IsSuccessStatus(outcome.response.statusCode)
              && DecodeBody(outcome.data, decode).Success?
    ensures r.Success? ==> r.value == DecodeBody(outcome.data, decode).value
    ensures outcome.Completed? && outcome.response.HTTPURLResponse? && IsSuccessStatus(outcome.response.statusCode) &&
            DecodeBody(outcome.data, decode).Failure? ==>
              r == Failure(DecodingError(DecodeBody(outcome.data, decode).error))
  {
    Catch(DoBlock(outcome, decode))
  }

  /** The decoder is consulted only for a 2xx HTTP response: for any other
      outcome two decoders give the same result. */
  lemma DecoderOnlyConsultedOnSuccessStatus<T>(outcome: TransportOutcome,
                                              decode1: (Json, seq<PathItem>) -> Result<T, DecodeFailure>,
                                              decode2: (Json, seq<PathItem>) -> Result<T, DecodeFailure>)
    requires !(outcome.Completed? && outcome.response.HTTPURLResponse? && IsSuccessStatus(outcome.response.statusCode))
    ensures HandleOutcome(outcome, decode1) == HandleOutcome(outcome, decode2)
  {
  }

  /** A `networkError` comes only from a foreign error thrown by the
      transport, or from a `networkError` the transport threw itself: an
      `APIError` is never wrapped again. */
  lemma NetworkErrorOnlyFromTransport<T>(outcome: TransportOutcome, decode: (Json, seq<PathItem>) -> Result<T, DecodeFailure>, d: string)
    ensures HandleOutcome(outcome, decode) == Failure(NetworkError(d)) <==>
              outcome == Threw(Foreign(d)) || outcome == Threw(Api(NetworkError(d)))
  {
  }

  // ---------------------------------------------------------------------------
  // The two fetches
  // ---------------------------------------------------------------------------

  /** `fetchFilms()`: one GET of `/films`, decoded as `[Film]`. */
  function FetchFilms(transport: string -> TransportOutcome): (c: Call<seq<Film>>)
    ensures c.requests == [FilmsURL()]
    ensures c.result == HandleOutcome(transport(FilmsURL()), DecodeFilmArray)
  {
    var url := FilmsURL();
    FilmsURLParses();
    if !ParsesAsURL(url) then Call([], Failure(InvalidURL))
    else Call([url], HandleOutcome(transport(url), DecodeFilmArray))
  }

  /** `fetchFilm(id:)`: one GET of `/films/{id}`, decoded as a `Film`, unless
      the URL cannot be built, in which case nothing is requested. */
  function FetchFilm(id: string, transport: string -> TransportOutcome): (c: Call<Film>)
    ensures !ParsesAsURL(FilmURL(id)) ==> c.requests == [] && c.result == Failure(InvalidURL)
    ensures ParsesAsURL(FilmURL(id)) ==>
              c.requests == [FilmURL(id)] && c.result == HandleOutcome(transport(FilmURL(id)), DecodeFilm)
  {
    var url := FilmURL(id);
    if !ParsesAsURL(url) then Call([], Failure(InvalidURL))
    else Call([url], HandleOutcome(transport(url), DecodeFilm))
  }

  /** A 2xx response whose body encodes a list of films yields exactly that
      list; an empty list is a success, not an error. */
  lemma FetchFilmsReturnsBodyFilms(transport: string -> TransportOutcome, films: seq<Film>, status: int)
    requires IsSuccessStatus(status)
    requires transport(FilmsURL()) == Completed(JsonText(EncodeFilmArray(films)), HTTPURLResponse(status))
    ensures FetchFilms(transport).result == Success(films)
  {
    FilmArrayRoundTrip(films, []);
  }

  /** The list URL is always built, so an `invalidURL` from `fetchFilms` can
      only be one the transport threw itself. */
  lemma FetchFilmsInvalidURLOnlyFromTransport(transport: string -> TransportOutcome)
    ensures FetchFilms(transport).result == Failure(InvalidURL) <==>
              transport(FilmsURL()) == Threw(Api(InvalidURL))
  {
  }

  /** A 2xx response whose body encodes a film yields exactly that film,
      whatever its `id`: the identifier asked for is not compared with the
      one returned. */
  lemma FetchFilmReturnsBodyFilm(id: string, transport: string -> TransportOutcome, film: Film, status: int)
    requires forall i :: 0 <= i < |id| ==> IsURLCharacter(id[i])
    requires IsSuccessStatus(status)
    requires transport(FilmURL(id)) == Completed(JsonText(EncodeFilm(film)), HTTPURLResponse(status))
    ensures FetchFilm(id, transport).requests == [FilmURL(id)]
    ensures FetchFilm(id, transport).result == Success(film)
  {
    FilmURLParsesIff(id);
    FilmRoundTrip(film, []);
  }

  /** A film that cannot be addressed is never requested. */
  lemma FetchFilmWithoutURL(id: string, transport: string -> TransportOutcome)
    requires exists i :: 0 <= i < |id| && !IsURLCharacter(id[i])
    ensures FetchFilm(id, transport).requests == []
    ensures FetchFilm(id, transport).result == Failure(InvalidURL)
  {
    FilmURLParsesIff(id);
  }

  /** A status outside 200...299 for `/films/{id}` is an `httpError` with
      that code, whatever the body (for instance 404 for an unknown id). */
  lemma FetchFilmHttpError(id: string, transport: string -> TransportOutcome, status: int)
    requires forall i :: 0 <= i < |id| ==> IsURLCharacter(id[i])
    requires !IsSuccessStatus(status)
    requires transport(FilmURL(id)).Completed? && transport(FilmURL(id)).response == HTTPURLResponse(status)
    ensures FetchFilm(id, transport).result == Failure(HttpError(status))
  {
    FilmURLParsesIff(id);
  }
}

=== FILE: image_cache.dfy ===
/** The in-memory image store (Services/ImageCache.swift): an `NSCache` keyed
    by the image's URL string, with a cost per entry and two ceilings, 100
    entries and 50 MiB of estimated pixel memory.

    The cache table is a map that the methods reassign; `totalCost` is the
    running sum of the entries' costs, kept in step with the table. */
module ImageCaching {
  import opened Wrappers

  /** A decoded image, known by its size in points as `UIImage.size` gives it. */
  datatype Image = Image(width: nat, height: nat)

  /** An image together with the cost it was stored with. */
  datatype Entry = Entry(image: Image, cost: nat)

  /** `cache.countLimit = 100`. */
  const DefaultCountLimit: nat := 100

  /** `cache.totalCostLimit = 50 * 1024 * 1024`: 50 MiB. */
  const DefaultTotalCostLimit: nat := 50 * 1024 * 1024

  /** The cost recorded for an image: four bytes (RGBA) per point. */
  function Cost(image: Image): nat {
    image.width * image.height * 4
  }

  /** The sum of the costs of the entries under `keys`. */
  ghost function SumCosts(entries: map<string, Entry>, keys: set<string>): nat
    requires keys <= entries.Keys
    decreases keys
  {
    if keys == {} then 0
    else
      var k :| k in keys;
      entries[k].cost + SumCosts(entries, keys - {k})
  }

  /** The cost of everything resident. */
  ghost function TotalCost(entries: map<string, Entry>): nat {
    SumCosts(entries, entries.Keys)
  }

  /** Any key can be taken out of the sum first. */
  lemma {:induction false} SumCostsRemove(entries: map<string, Entry>, keys: set<string>, k: string)
    requires keys <= entries.Keys && k in keys
    ensures SumCosts(entries, keys) == entries[k].cost + SumCosts(entries, keys - {k})
    decreases keys
  {
    var j :| j in keys && SumCosts(entries, keys) == entries[j].cost + SumCosts(entries, keys - {j});
    if j != k {
      SumCostsRemove(entries, keys - {j}, k);
      SumCostsRemove(entries, keys - {k}, j);
      assert keys - {j} - {k} == keys - {k} - {j};
    }
  }

  /** The sum only depends on the entries under `keys`. */
  lemma {:induction false} SumCostsAgree(e1: map<string, Entry>, e2: map<string, Entry>, keys: set<string>)
    requires keys <= e1.Keys && keys <= e2.Keys
    requires forall k :: k in keys ==> e1[k] == e2[k]
    ensures SumCosts(e1, keys) == SumCosts(e2, keys)
    decreases keys
  {
    if keys != {} {
      var k :| k in keys && SumCosts(e1, keys) == e1[k].cost + SumCosts(e1, keys - {k});
      SumCostsAgree(e1, e2, keys - {k});
      SumCostsRemove(e2, keys, k);
    }
  }

  /** Removing a resident entry takes exactly its cost off the total. */
  lemma TotalCostRemove(entries: map<string, Entry>, k: string)
    requires k in entries
    ensures TotalCost(entries) == entries[k].cost + TotalCost(entries - {k})
  {
    SumCostsRemove(entries, entries.Keys, k);
    assert (entries - {k}).Keys == entries.Keys - {k};
    SumCostsAgree(entries, entries - {k}, entries.Keys - {k});
  }

  /** Adding an entry under a new key adds exactly its cost to the total. */
  lemma TotalCostInsert(entries: map<string, Entry>, k: string, e: Entry)
    requires k !in entries
    ensures TotalCost(entries[k := e]) == TotalCost(entries) + e.cost
  {
    var m := entries[k := e];
    TotalCostRemove(m, k);
    assert m - {k} == entries;
  }

  class ImageCache {
    /** The cache table: URL string to stored entry. */
    var entries: map<string, Entry>
    /** The running total of the stored costs. */
    var totalCost: nat
    const countLimit: nat
    const totalCostLimit: nat

    /** The total is the sum of the stored costs, each cost is the one its
        image calls for, and after every operation the ceilings hold, except
        that a single entry over the cost ceiling on its own is kept. */
    ghost predicate Valid()
      reads this
    {
      && totalCost == TotalCost(entries)
      && (forall k :: k in entries ==> entries[k].cost == Cost(entries[k].image))
      && 1 <= countLimit
      && |entries| <= countLimit
      && (totalCost <= totalCostLimit || |entries| == 1)
    }

    /** `init()`: an empty cache with the two configured ceilings. */
    constructor ()
      ensures Valid()
      ensures entries == map[]
      ensures countLimit == DefaultCountLimit && totalCostLimit == DefaultTotalCostLimit
    {
      entries := map[];
      totalCost := 0;
      countLimit := DefaultCountLimit;
      totalCostLimit := DefaultTotalCostLimit;
    }

    /** `getImage(forKey:)`: the image stored under exactly this key, if any;
        nothing changes. */
    method GetImage(key: string) returns (image: Option<Image>)
      requires Valid()
      ensures key in entries ==> image == Some(entries[key].image)
      ensures key !in entries ==> image == None
    {
      if key in entries {
        image := Some(entries[key].image);
      } else {
        image := None;
      }
    }

    /** `setImage(_:forKey:)`: stores the image with cost width * height * 4,
        replacing any entry under the key.  If a ceiling is then exceeded,
        other entries are evicted, in an order this model leaves open, until
        both ceilings hold again or the new entry is alone. */
    method SetImage(image: Image, key: string)
      requires Valid()
      modifies this
      ensures Valid()
      ensures key in entries && entries[key] == Entry(image, Cost(image))
      ensures forall k :: k in entries && k != key ==> k in old(entries) && entries[k] == old(entries)[k]
      ensures |entries| <= countLimit
      ensures totalCost <= totalCostLimit || entries.Keys == {key}
    {
      Discard(key);
      TotalCostInsert(entries, key, Entry(image, Cost(image)));
      entries := entries[key := Entry(image, Cost(image))];
      totalCost := totalCost + Cost(image);
      while (|entries| > countLimit || totalCost > totalCostLimit) && entries.Keys != {key}
        invariant totalCost == TotalCost(entries)
        invariant forall k :: k in entries ==> entries[k].cost == Cost(entries[k].image)
        invariant key in entries && entries[key] == Entry(image, Cost(image))
        invariant forall k :: k in entries && k != key ==> k in old(entries) && entries[k] == old(entries)[k]
        decreases |entries|
      {
        assert entries.Keys - {key} != {};
        var victim :| victim in entries.Keys - {key};
        Discard(victim);
      }
      assert entries.Keys == {key} ==> |entries| == |entries.Keys| == 1;
    }

    /** Takes the entry under `key`, if there is one, out of the table and its
        cost out of the total. */
    method Discard(key: string)
      requires totalCost == TotalCost(entries)
      modifies this
      ensures totalCost == TotalCost(entries) && totalCost <= old(totalCost)
      ensures entries == old(entries) - {key}
    {
      if key in entries {
        TotalCostRemove(entries, key);
        totalCost := totalCost - entries[key].cost;
        entries := entries - {key};
      } else {
        assert entries - {key} == entries;
      }
    }

    /** `removeImage(forKey:)`: the key is gone and every other entry stays;
        an absent key changes nothing. */
    method RemoveImage(key: string)
      requires Valid()
      modifies this
      ensures Valid()
      ensures entries == old(entries) - {key}
    {
      Discard(key);
      if |entries| == 0 {
        assert entries == map[];
      }
    }

    /** `clearCache()`: nothing is left, so every lookup misses; clearing an
        empty cache leaves it empty. */
    method ClearCache()
      requires Valid()
      modifies this
      ensures Valid()
      ensures entries == map[]
    {
      entries := map[];
      totalCost := 0;
    }
  }
}

=== FILE: wrappers.dfy ===
/** Option and Result, the two failure-carrying types the model uses in place of
    Swift's optionals and thrown errors. */
module Wrappers {

  datatype Option<+T> = None | Some(value: T) {
    /** Swift's `??`: the wrapped value, or `default` when there is none. */
    function GetOr(default: T): T {
      match this
      case Some(v) => v
      case None => default
    }
  }

  /** A value or the error that a Swift `throws` function would have thrown. */
  datatype Result<+T, +E> = Success(value: T) | Failure(error: E)
}
